=== FILE: README.md ===
# Two-player snake engine in Dafny

This project models the `GameState` class of a two-player snake game, which is its simulation engine.
The engine owns a `Rows x Cols` grid of cell values (`Empty`, `Snake`, `Food`, `Outside`).
It also owns:

- two snake bodies, stored head first;
- two FIFO queues of pending direction changes;
- one shared score;
- one game-over flag;
- a one-shot `firstMove` flag.

Each call to `Move` advances both snakes by one cell.

The model is purely functional. `Engine.GameState` is an immutable record and every operation returns a new state:

- The grid is a `seq<seq<GridValue>>`.
- Bodies and queues are sequences.
- The one random choice in the engine, the index `random.Next(empty.Count)` used to place food, becomes a caller-supplied `draw: nat`. It is reduced modulo the number of Empty cells.

Modules, in dependency order:

- `Wrappers`: the `Option` type. The constructor returns `None` exactly where the C# constructor throws.
- `Geometry`: positions, the four directions with their unit offsets and opposites, cell values, and the new-head computation. Rows grow downwards, so `Up` decreases the row.
- `Board`: the grid, reading and writing one cell, the bounds test, and `CellsOf`, the set of cells holding a value.
- `Food`: the row-major enumeration of Empty cells and food spawning.
- `Engine`: the state, the constructor, direction requests, the dequeue, the classification of candidate heads (`WillHit` and the `firstMove` flag), body updates and the tick `Move`.
- `Invariants`: the occupancy invariant. It says that Snake cells and body segments coincide, bodies are disjoint and repeat no cell, and at most one cell holds food. The module proves which ticks preserve it.
- `Scenarios`: ticks that break the invariant when its preconditions are dropped, and the case of two snakes facing each other.

The occupancy invariant does not hold unconditionally in the code, so it is proved under two explicit preconditions: the two new heads differ, and neither new head is its own snake's tail. `Scenarios` shows that each condition is needed:

- Entering the own tail leaves the new head on a cell that is not Snake: snake 1's own step clears it, and snake 2's food spawn may then turn it into Food.
- Two snakes entering the same food cell both eat it, so the score rises by two and the two bodies share a cell.
- Snake 1's new food can land on snake 2's target and be overwritten, so a tick can end with no food.

With four columns both snakes start on the same cell, so a new game satisfies the invariant only when `cols != 4` (`Invariants.NewAliasesWhenFourColumns`).

The engine has a single game-over flag. The presentation layer's description of one flag per snake (`GameOver1`/`GameOver2`) has no counterpart in the engine, and the model follows the engine. For the same reason, two snakes facing each other in adjacent cells do not swap places. Each new head is classified against the grid as it was before either body moved. The other snake's cell is therefore `Snake`, and the tick ends the game (`Scenarios.FacingSnakesCrash`). Only a snake's own tail is exempt.

## Model

| member | source | states |
|---|---|---|
| Engine.New | GameState.cs:22-40 | `None` exactly when the C# constructor throws (`rows < 1` or `cols < 3`). Otherwise the state is valid: snake 1 is the single cell `(rows/2, 1)` heading Right, snake 2 is the single cell `(rows/2, cols-3)` heading Left, both queues are empty, the score is 0, the game is not over and `firstMove` is set |
| Engine.StartGridCells | GameState.cs:26-40 | Before food, the Snake cells are exactly the two start cells, no cell holds food, and the last column of the middle row is Empty |
| Engine.NewBoard | GameState.cs:22-67 | After construction the Snake cells are exactly the two start cells and exactly one cell holds food |
| Engine.StartGrid | GameState.cs:26-40 | The start grid has the declared shape and stores no `Outside` |
| Invariants.NewOccupancy | GameState.cs:22-40 | A new game with `cols != 4` satisfies the occupancy invariant |
| Invariants.NewAliasesWhenFourColumns | GameState.cs:30-31 | With four columns both snakes start on the same cell, and the invariant fails |
| Food.EmptyPositions | GameState.cs:42-54 | Lists every Empty cell, and only those, in strictly increasing row-major order (so none twice) |
| Food.EmptyInRow | GameState.cs:46-52 | Lists the Empty cells of one row from a given column on, left to right |
| Food.EmptyFromRow | GameState.cs:44-53 | Lists the Empty cells of the rows from a given row on, in row-major order |
| Food.CollectEmptyPositions | GameState.cs:42-54 | The two nested loops produce exactly the row-major list of Empty cells |
| Food.PickIndex | GameState.cs:65 | The random index is always below the count of Empty cells, and every index below the count is reachable |
| Food.FoodSpot | GameState.cs:56-65 | No spot exactly when no cell is Empty; otherwise the spot is one of the Empty cells |
| Food.FoodSpotCovers | GameState.cs:65 | Every Empty cell is chosen by some draw |
| Food.AddFood | GameState.cs:56-67 | On a grid with no Empty cell the grid is unchanged; otherwise one previously Empty cell becomes Food and no other cell changes |
| Food.AddFoodCells | GameState.cs:56-67 | Spawning leaves the Snake cells alone and adds exactly one former Empty cell to the Food cells, or none on a full grid |
| Food.AddFoodToFoodless | GameState.cs:56-67 | On a grid without food, spawning leaves exactly one Food cell, or none when no cell is Empty |
| Food.AddFoodOnlyFillsEmpty | GameState.cs:56-67 | The only cell change spawning makes is Empty to Food |
| Food.AddFoodKeepsNoOutside | GameState.cs:66 | Spawning never stores `Outside` |
| Engine.CanChangeDirection | GameState.cs:107-110 | A change is accepted exactly when the two directions are at a right angle |
| Engine.Request | GameState.cs:81-87 | An accepted direction is appended to the queue; a rejected one leaves it unchanged; the body and current direction are unchanged |
| Engine.ChangeDirection | GameState.cs:81-87 | Player 1's queue grows by one, with `d` at its end, exactly when `d` is neither the current direction nor its opposite; otherwise it is unchanged. Player 2 and all other state are unchanged |
| Engine.ChangeDirection2 | GameState.cs:89-95 | The same for player 2, with player 1 and all other state unchanged |
| Engine.RequestAllKeepsOrder | GameState.cs:81-95 | Several requests between ticks queue the accepted ones in arrival order behind the pending ones. Each is checked against the current direction, not the last queued one |
| Engine.TakePending | GameState.cs:143-153 | With a nonempty queue the oldest entry becomes the direction and leaves the queue; with an empty queue the snake is unchanged |
| Board.OutsideGridIsNotInBounds | GameState.cs:112-115 | On a grid of the declared shape, the bounds test is exactly "not a valid index" |
| Board.Place | GameState.cs:207 | The grid store `Grid[r, c] = v` (also at lines 38, 66 and 213): the shape is kept, the written cell holds `v` and every other cell keeps its value |
| Board.Blank | GameState.cs:26 | The new grid has `rows x cols` cells, all Empty |
| Geometry.Direction.Opposite | GameState.cs:109 | The opposite of a direction differs from it and has the negated offsets |
| Geometry.OppositeInvolutive | GameState.cs:109 | Taking the opposite twice gives the direction back |
| Geometry.UnitOffsets | GameState.cs:201 | Each direction moves exactly one cell, either along a row or along a column |
| Geometry.NewHead | GameState.cs:199-202 | The candidate head is one step (Manhattan distance 1) from the old head |
| Geometry.NewHeadOpposite | GameState.cs:199-202 | Stepping in a direction and then in its opposite returns to the start |
| Geometry.NewHeadInjective | GameState.cs:199-202 | Different directions give different candidate heads |
| Engine.WillHit | GameState.cs:117-139 | `Outside` exactly off the grid, and then the flag is kept. On the grid with `firstMove` set, the raw cell value, and the flag is cleared. Otherwise `Empty` for the snake's own tail and the raw value elsewhere. The grid is never indexed out of bounds |
| Engine.Classify | GameState.cs:143-159 | Dequeues one direction per snake, computes both candidates from the old heads, and classifies both against the grid before either body moves. Only the first in-bounds classification sees the raw value of the own tail, and snake 2 gets that treatment only when snake 1's candidate was off the grid |
| Engine.AddHead | GameState.cs:204-208 | The body gains `pos` in front, that cell becomes Snake, and nothing else changes |
| Engine.RemoveTail | GameState.cs:210-215 | The body loses its last cell, that cell becomes Empty, and nothing else changes |
| Engine.Grow | GameState.cs:167-172 | On food: the head is prepended, the score rises by exactly one and the head's cell is Snake. If another cell is Empty, exactly one such cell becomes Food and no other cell changes; if none is, no other cell changes |
| Engine.Shift | GameState.cs:173-177 | Without food: the head is prepended and the old tail removed, so the length is unchanged. The old tail's cell is Empty and the head's cell is Snake unless it is the old tail. No other cell changes |
| Engine.GrowStep | GameState.cs:167-172 | An eating step changes the grid as the step relation says: the head is Snake and every other cell keeps its value except at most one Empty cell that becomes Food |
| Engine.ShiftStep | GameState.cs:173-177 | A step without food changes the grid as the step relation says: the old tail is Empty, the head is Snake unless it is the old tail, and no other cell changes |
| Engine.Advance | GameState.cs:167-189 | One snake's step: on Food the body grows by the head and the score by one; otherwise the head is prepended and the tail dropped. On the grid the head becomes Snake (unless a non-eating snake enters its own tail), a non-eating snake's old tail becomes Empty, and every other cell keeps its value except at most one Empty cell that becomes Food when the snake eats. When the snake eats and some other cell is Empty, exactly one such cell becomes Food |
| Engine.StepsMakeTick | GameState.cs:165-190 | Two steps in a row, snake 1 then snake 2, change the grid as the tick relation says: surviving heads are Snake, old tails of non-eating snakes are cleared unless the other head is on them (snake 1's may instead take snake 2's new food), and every other cell, an eating snake's old tail included, keeps its value except at most one Empty cell per eating snake that becomes Food |
| Engine.QuietTickClearsTails | GameState.cs:173-189 | In a tick where neither snake eats, both vacated tails end Empty (snake 1's unless snake 2's head is on it) and every other cell except the heads keeps its value, so no food appears |
| Engine.Resolve | GameState.cs:165-190 | Snake 1 steps and then snake 2: each grows on Food and shifts otherwise, and the score rises by the number of snakes that ate. The grid changes as the tick relation says: each head is Snake unless a later write clears it, a non-eating snake's old tail is cleared unless the other head is on it (snake 1's may instead take snake 2's new food), and every other cell, an eating snake's old tail included, keeps its value except at most one Empty cell per eating snake that becomes Food |
| Engine.Move | GameState.cs:141-191 | The dequeue happens even on a crash tick. On a crash (`Outside` or `Snake` for either snake) the game is over and the grid, both bodies and the score are unchanged. Otherwise the flag is untouched, each body grows or shifts as classified, and the grid changes as the tick relation of `Engine.Resolve` says: the heads are marked Snake, the old tails of non-eating snakes are cleared unless the other head is on them (snake 1's may instead take snake 2's new food), and every other cell keeps its value except at most one Empty cell per eating snake that becomes Food. The score never decreases and rises by at most two |
| Invariants.ClassifyAgainstBodies | GameState.cs:117-139 | Under the invariant, an in-grid candidate is `Snake` exactly when it lies on a body and is not the exempt own tail, and `Food` exactly when it is the food cell and not exempt |
| Invariants.MoveIntoOtherSnakeCrashes | GameState.cs:158-164 | Entering any cell of the other snake, its tail included, is a crash that leaves grid and bodies unchanged |
| Invariants.GrowCells | GameState.cs:167-172 | Eating adds exactly the head to the Snake cells and, when the only food was on the head, leaves at most one Food cell |
| Invariants.HeadAddedKeepsOccupancy | GameState.cs:204-208 | Prepending a head that is off both bodies and becomes the one new Snake cell keeps the invariant, as long as at most one food remains |
| Invariants.GrowKeepsOccupancy | GameState.cs:167-172 | Eating keeps the invariant when the head is off both bodies and the food was on the head |
| Invariants.ShiftFoodCells | GameState.cs:173-177 | A step without food removes the head and the old tail from the Food cells and adds none |
| Invariants.ShiftKeepsOccupancy | GameState.cs:173-177 | Moving without eating keeps the invariant when the head is off both bodies |
| Invariants.StepKeepsOccupancy | GameState.cs:167-189 | One snake's step keeps the invariant, leaves the other snake alone, and adds only the head to the body's cells |
| Invariants.TickFacts | GameState.cs:155-161 | In a tick without a crash where the heads differ and neither is its own tail, both heads are on the grid and off both bodies, and a snake classified Food is heading for the only food cell |
| Invariants.ResolveKeepsOccupancy | GameState.cs:165-190 | Both steps together keep the invariant when the heads are distinct, on the grid and off both bodies |
| Invariants.TickKeepsOccupancy | GameState.cs:141-191 | A tick without a crash keeps the invariant when the heads differ and neither is its own tail |
| Invariants.MoveKeepsOccupancy | GameState.cs:141-191 | Every tick keeps the invariant, provided that when there is no crash the heads differ and neither is its own tail |
| Scenarios.ResolveOntoOwnTail | GameState.cs:173-177 | A head entering its own tail is written and then cleared as the old tail, and snake 2's step does not write Snake there again |
| Scenarios.OwnTailClearsHead | GameState.cs:133-136 | After the first move, entering the own tail is allowed, but the head ends up on a cell that is not Snake and the invariant breaks |
| Scenarios.SameCellScoresTwice | GameState.cs:167-184 | Two snakes entering the same food cell both eat: the score rises by two, the heads coincide and the invariant breaks |
| Scenarios.FoodOntoTarget | GameState.cs:56-67 | After the only food is eaten, some draw puts the new food on any chosen Empty cell |
| Scenarios.FoodCanBeOverwritten | GameState.cs:167-189 | When snake 1 eats, some draw makes snake 2 overwrite the new food, so the tick ends with no food |
| Scenarios.FacingSnakesCrash | GameState.cs:155-164 | Two single-cell snakes facing each other in adjacent cells do not swap places: the tick is a crash with grid and bodies unchanged |

## Left out

- The WPF presentation layer (`MainWindow.xaml.cs`) is not part of this model. It covers images, drawing, key mapping, the timed game loop and the countdown, and it reads per-snake game-over flags that the engine does not have.
- The uniformity of `System.Random` is not modelled. The draw is a parameter, and the model proves only that every Empty cell is reachable.
- The read accessors (`HeadPosition`, `TailPosition`, `SnakePositions` and their player-2 versions) are plain field reads, here `Head`, `Tail` and the `body` fields.
- `GetLastDirection` and `AddBody` are never called in the engine, so they are not modelled.
- `Position`, `Direction` and `GridValue` are defined outside the engine, so they are modelled minimally here. `Up` decreases the row and `Left` decreases the column. A fresh grid is all Empty, as the first enum member is the C# default. `Position` equality is structural (same row and same column); the own-tail test `newHeadPos.Equals(snake.Last.Value)` behaves as modelled only if `Position.Equals` compares row and column, which the engine's source does not show.
- `OutsideGrid` has no row of its own: it is the bounds test used as written, and `Board.OutsideGridIsNotInBounds` and `Engine.WillHit` state what it means.
- `Crashes` and `IsCrash` have no row of their own: they are the crash test of GameState.cs:161 (`Outside` or `Snake` for either candidate), and `Engine.Move` states what happens on each outcome.
- `At` has no row of its own: it is the plain grid read `Grid[r, c]` (GameState.cs:129 and 138), and `Board.Place` states how it relates to the store.
- Engine.Resolve: the tick relation bounds the new food to one cell per eating snake but does not promise that any spawn happens, not even snake 2's, which nothing overwrites; nor that snake 1's survives the tick (snake 2 may overwrite it, see `Scenarios.FoodCanBeOverwritten`). `Engine.Grow` and `Engine.Advance` state the spawn for one step.
- Engine.StepsMakeTick: the same holds; it composes two step relations, and those promise at most one spawn each, not that one happens.
- Engine.Move: the same holds for the grid on a tick without a crash. Also, the 32-bit `Score` is an unbounded integer, so overflow after more than 2^31 - 1 foods is not modelled.
- Engine.New: the C# constructor also throws for sizes too large to allocate, and that case is not modelled.
- Scenarios.SameCellScoresTwice: it does not state that `AddFood` runs twice and can leave two Food cells. It shows only the double score and the shared cell.
- Concurrency and thread safety are out of scope, because the engine is single-threaded.

=== FILE: board.dfy ===
/** The game grid: a `Rows x Cols` matrix of cell values, read and written
    one cell at a time. */
module Board {

  import opened Geometry

  /** Row-major matrix; `g[r][c]` is the cell at row `r`, column `c`. */
  type Grid = seq<seq<GridValue>>

  /** `g` has exactly `rows` rows of `cols` cells each. */
  predicate Shaped(g: Grid, rows: int, cols: int) {
    && |g| == rows
    && 0 <= cols
    && forall r :: 0 <= r < |g| ==> |g[r]| == cols
  }

  /** `g` and `h` have the same rows of the same lengths. */
  predicate SameShape(g: Grid, h: Grid) {
    && |g| == |h|
    && forall r :: 0 <= r < |g| ==> |g[r]| == |h[r]|
  }

  /** `Outside` is a classification, never a stored value. */
  predicate NoOutsideStored(g: Grid) {
    forall r, c :: 0 <= r < |g| && 0 <= c < |g[r]| ==> g[r][c] != Outside
  }

  predicate InBounds(g: Grid, p: Position) {
    0 <= p.row < |g| && 0 <= p.col < |g[p.row]|
  }

  function At(g: Grid, p: Position): GridValue
    requires InBounds(g, p)
  {
    g[p.row][p.col]
  }

  /** The C# `OutsideGrid` bounds test against the grid's declared dimensions. */
  predicate OutsideGrid(rows: int, cols: int, p: Position) {
    p.row < 0 || p.row >= rows || p.col < 0 || p.col >= cols
  }

  /** On a grid of the declared shape, the bounds test is exactly the
      negation of being a valid index, so classifying never reads out of bounds. */
  lemma OutsideGridIsNotInBounds(g: Grid, rows: int, cols: int, p: Position)
    requires Shaped(g, rows, cols)
    ensures OutsideGrid(rows, cols, p) <==> !InBounds(g, p)
  {
  }

  /** A fresh grid of `rows x cols` cells, all Empty (the default value of
      a new C# `GridValue` array). */
  function Blank(rows: nat, cols: nat): (g: Grid)
    ensures Shaped(g, rows, cols)
    ensures forall r, c :: 0 <= r < rows && 0 <= c < cols ==> g[r][c] == Empty
  {
    seq(rows, _ => seq(cols, _ => Empty))
  }

  /** A blank grid has no cell of any value but Empty. */
  lemma BlankCells(rows: nat, cols: nat, v: GridValue)
    requires v != Empty
    ensures CellsOf(Blank(rows, cols), v) == {}
  {
    var b := Blank(rows, cols);
    forall q | q in CellsOf(b, v)
      ensures false
    {
    }
  }

  /** A grid of the same shape has the same cells. */
  lemma SameShapeInBounds(g: Grid, h: Grid)
    requires SameShape(g, h)
    ensures forall q :: InBounds(g, q) <==> InBounds(h, q)
  {
  }

  /** Overwrites one cell: the cell at `p` reads `v` afterwards and every
      other cell reads as before. */
  function Place(g: Grid, p: Position, v: GridValue): (r: Grid)
    requires InBounds(g, p)
    ensures SameShape(r, g)
    ensures At(r, p) == v
    ensures forall q :: InBounds(g, q) && q != p ==> At(r, q) == At(g, q)
  {
    g[p.row := g[p.row][p.col := v]]
  }

  /** Placing a stored value keeps the grid free of `Outside`. */
  lemma PlaceKeepsNoOutside(g: Grid, p: Position, v: GridValue)
    requires InBounds(g, p) && NoOutsideStored(g) && v != Outside
    ensures NoOutsideStored(Place(g, p, v))
  {
    var r := Place(g, p, v);
    forall i, j | 0 <= i < |r| && 0 <= j < |r[i]|
      ensures r[i][j] != Outside
    {
      assert InBounds(g, Position(i, j));
      if Position(i, j) != p {
        assert At(r, Position(i, j)) == At(g, Position(i, j));
      }
    }
  }

  /** The set of cells holding `v`. */
  ghost function CellsOf(g: Grid, v: GridValue): (cs: set<Position>)
    ensures forall q :: q in cs <==> InBounds(g, q) && At(g, q) == v
  {
    set r, c | 0 <= r < |g| && 0 <= c < |g[r]| && g[r][c] == v :: Position(r, c)
  }

  /** Writing `v` at `p` adds `p` to the cells of `v` and removes it from
      the cells of every other value. */
  lemma PlaceCells(g: Grid, p: Position, v: GridValue, w: GridValue)
    requires InBounds(g, p)
    ensures CellsOf(Place(g, p, v), w) == if w == v then CellsOf(g, w) + {p} else CellsOf(g, w) - {p}
  {
    var r := Place(g, p, v);
    assert forall q :: InBounds(r, q) <==> InBounds(g, q);
  }
}

=== FILE: engine.dfy ===
/** The simulation engine of the two-player snake game (the C#
    `GameState` class) as an immutable record and pure operations on it. */
module Engine {

  import opened Wrappers
  import opened Geometry
  import opened Board
  import opened Food

  datatype Player = One | Two {
    function Other(): Player {
      if this == One then Two else One
    }
  }

  /** One snake: its cells head-first, its current direction and the FIFO of
      accepted direction changes not yet applied. */
  datatype SnakeState = SnakeState(body: seq<Position>, dir: Direction, pending: seq<Direction>)

  /** The whole engine state. There is a single game-over flag; `firstMove`
      is the one-shot flag that disables the tail exemption once. */
  datatype GameState = GameState(
    rows: int,
    cols: int,
    grid: Grid,
    snake1: SnakeState,
    snake2: SnakeState,
    score: int,
    gameOver: bool,
    firstMove: bool)
  {
    function SnakeOf(p: Player): SnakeState {
      if p == One then snake1 else snake2
    }

    function WithSnake(p: Player, sn: SnakeState): GameState {
      if p == One then this.(snake1 := sn) else this.(snake2 := sn)
    }
  }

  function Head(body: seq<Position>): Position
    requires |body| > 0
  {
    body[0]
  }

  function Tail(body: seq<Position>): Position
    requires |body| > 0
  {
    body[|body| - 1]
  }

  predicate BodyInBounds(g: Grid, body: seq<Position>) {
    forall i :: 0 <= i < |body| ==> InBounds(g, body[i])
  }

  /** The grid has the declared shape and stores no `Outside`, every body
      cell is on the grid and the score is not negative. */
  predicate WellFormed(s: GameState) {
    && Shaped(s.grid, s.rows, s.cols)
    && NoOutsideStored(s.grid)
    && BodyInBounds(s.grid, s.snake1.body)
    && BodyInBounds(s.grid, s.snake2.body)
    && s.score >= 0
  }

  /** Well-formed and both snakes have at least one cell. */
  predicate Valid(s: GameState) {
    WellFormed(s) && |s.snake1.body| > 0 && |s.snake2.body| > 0
  }

  /** Replacing the grid by one of the same shape that stores no `Outside`
      keeps a well-formed state well-formed. */
  lemma RegridKeepsWellFormed(s: GameState, g: Grid)
    requires WellFormed(s) && SameShape(g, s.grid) && NoOutsideStored(g)
    ensures WellFormed(s.(grid := g))
  {
    SameShapeInBounds(g, s.grid);
  }

  // ---------------------------------------------------------------------
  // Construction

  /** The blank grid with the two start cells marked Snake, before food. */
  function StartGrid(rows: int, cols: int): (g: Grid)
    requires rows >= 1 && cols >= 3
    ensures Shaped(g, rows, cols) && NoOutsideStored(g)
  {
    var b := Blank(rows, cols);
    var g1 := Place(b, Position(rows / 2, 1), Snake);
    PlaceKeepsNoOutside(b, Position(rows / 2, 1), Snake);
    PlaceKeepsNoOutside(g1, Position(rows / 2, cols - 3), Snake);
    SameShapeInBounds(g1, b);
    Place(g1, Position(rows / 2, cols - 3), Snake)
  }

  /** The start grid has Snake exactly on the two start cells, no food, and
      its last column is Empty. */
  lemma StartGridCells(rows: int, cols: int)
    requires rows >= 1 && cols >= 3
    ensures CellsOf(StartGrid(rows, cols), Snake) == {Position(rows / 2, 1), Position(rows / 2, cols - 3)}
    ensures CellsOf(StartGrid(rows, cols), Food) == {}
    ensures Position(rows / 2, cols - 1) in CellsOf(StartGrid(rows, cols), Empty)
  {
    var start1 := Position(rows / 2, 1);
    var start2 := Position(rows / 2, cols - 3);
    var b := Blank(rows, cols);
    var g1 := Place(b, start1, Snake);
    BlankCells(rows, cols, Snake);
    BlankCells(rows, cols, Food);
    PlaceCells(b, start1, Snake, Snake);
    PlaceCells(b, start1, Snake, Food);
    SameShapeInBounds(g1, b);
    PlaceCells(g1, start2, Snake, Snake);
    PlaceCells(g1, start2, Snake, Food);
  }

  /** `new GameState(rows, cols)`: a blank grid, snake 1 on `(rows/2, 1)`
      facing right, snake 2 on `(rows/2, cols-3)` facing left, then one food.
      The C# `GameState` constructor throws for a negative size or when a start cell is off the
      grid, that is exactly when `rows < 1` or `cols < 3`; that is `None` here. */
  function New(rows: int, cols: int, draw: nat): (r: Option<GameState>)
    ensures r.None? <==> rows < 1 || cols < 3
    ensures r.Some? ==> Valid(r.value) && r.value.rows == rows && r.value.cols == cols
    ensures r.Some? ==>
              && r.value.snake1 == SnakeState([Position(rows / 2, 1)], Right, [])
              && r.value.snake2 == SnakeState([Position(rows / 2, cols - 3)], Left, [])
    ensures r.Some? ==> r.value.score == 0 && !r.value.gameOver && r.value.firstMove
  {
    if rows < 1 || cols < 3 then None
    else
      var g := StartGrid(rows, cols);
      AddFoodKeepsNoOutside(g, draw);
      Some(GameState(rows, cols, AddFood(g, draw),
                     SnakeState([Position(rows / 2, 1)], Right, []),
                     SnakeState([Position(rows / 2, cols - 3)], Left, []),
                     0, false, true))
  }

  /** The starting board: the two start cells are the only Snake cells
      (one cell when `cols == 4` puts both snakes on it) and exactly one
      cell holds food. */
  lemma NewBoard(rows: int, cols: int, draw: nat)
    requires rows >= 1 && cols >= 3
    ensures New(rows, cols, draw).Some?
    ensures var s := New(rows, cols, draw).value;
            && CellsOf(s.grid, Snake) == {Position(rows / 2, 1), Position(rows / 2, cols - 3)}
            && |CellsOf(s.grid, Food)| == 1
  {
    var g := StartGrid(rows, cols);
    StartGridCells(rows, cols);
    AddFoodCells(g, draw);
    AddFoodToFoodless(g, draw);
    assert New(rows, cols, draw).value.grid == AddFood(g, draw);
  }

  // ---------------------------------------------------------------------
  // Direction changes

  /** A change is accepted only when it turns by a right angle: neither the
      current direction nor its reverse. */
  function CanChangeDirection(newDir: Direction, currentDir: Direction): (ok: bool)
    ensures ok <==> Dot(newDir, currentDir) == 0
  {
    newDir != currentDir && newDir != currentDir.Opposite()
  }

  /** Queue `d` behind the pending changes if it is accepted against the
      snake's current direction (not against the last queued one). */
  function Request(sn: SnakeState, d: Direction): (r: SnakeState)
    ensures r.body == sn.body && r.dir == sn.dir
    ensures CanChangeDirection(d, sn.dir) ==> r.pending == sn.pending + [d]
    ensures !CanChangeDirection(d, sn.dir) ==> r.pending == sn.pending
  {
    if CanChangeDirection(d, sn.dir) then sn.(pending := sn.pending + [d]) else sn
  }

  /** Player 1's direction request; player 2 and everything else are untouched. */
  function ChangeDirection(s: GameState, d: Direction): (r: GameState)
    ensures r.(snake1 := s.snake1) == s
    ensures r.snake1.body == s.snake1.body && r.snake1.dir == s.snake1.dir
    ensures |r.snake1.pending| == |s.snake1.pending| + 1 <==> d != s.snake1.dir && d != s.snake1.dir.Opposite()
    ensures |r.snake1.pending| == |s.snake1.pending| + 1 ==> r.snake1.pending == s.snake1.pending + [d]
    ensures |r.snake1.pending| != |s.snake1.pending| + 1 ==> r.snake1.pending == s.snake1.pending
  {
    s.(snake1 := Request(s.snake1, d))
  }

  /** Player 2's direction request; player 1 and everything else are untouched. */
  function ChangeDirection2(s: GameState, d: Direction): (r: GameState)
    ensures r.(snake2 := s.snake2) == s
    ensures r.snake2.body == s.snake2.body && r.snake2.dir == s.snake2.dir
    ensures |r.snake2.pending| == |s.snake2.pending| + 1 <==> d != s.snake2.dir && d != s.snake2.dir.Opposite()
    ensures |r.snake2.pending| == |s.snake2.pending| + 1 ==> r.snake2.pending == s.snake2.pending + [d]
    ensures |r.snake2.pending| != |s.snake2.pending| + 1 ==> r.snake2.pending == s.snake2.pending
  {
    s.(snake2 := Request(s.snake2, d))
  }

  /** The requests among `ds` that are accepted against direction `current`, in order. */
  function Accepted(ds: seq<Direction>, current: Direction): seq<Direction> {
    if |ds| == 0 then []
    else (if CanChangeDirection(ds[0], current) then [ds[0]] else []) + Accepted(ds[1..], current)
  }

  /** Several requests between two ticks, in arrival order. */
  function RequestAll(sn: SnakeState, ds: seq<Direction>): SnakeState
    decreases |ds|
  {
    if |ds| == 0 then sn else RequestAll(Request(sn, ds[0]), ds[1..])
  }

  /** Requests made between two ticks are kept in arrival order behind the
      already pending ones; the rejected ones are dropped. */
  lemma {:induction false} RequestAllKeepsOrder(sn: SnakeState, ds: seq<Direction>)
    ensures RequestAll(sn, ds).body == sn.body && RequestAll(sn, ds).dir == sn.dir
    ensures RequestAll(sn, ds).pending == sn.pending + Accepted(ds, sn.dir)
    decreases |ds|
  {
    if |ds| > 0 {
      RequestAllKeepsOrder(Request(sn, ds[0]), ds[1..]);
      assert sn.pending + Accepted(ds, sn.dir)
          == sn.pending + (if CanChangeDirection(ds[0], sn.dir) then [ds[0]] else []) + Accepted(ds[1..], sn.dir);
    }
  }

  /** At the start of a tick: the oldest pending change, if any, becomes the
      direction and leaves the queue; with an empty queue nothing changes. */
  function TakePending(sn: SnakeState): (r: SnakeState)
    ensures r.body == sn.body
    ensures |sn.pending| == 0 ==> r == sn
    ensures |sn.pending| > 0 ==> [r.dir] + r.pending == sn.pending
  {
    if |sn.pending| > 0 then sn.(dir := sn.pending[0], pending := sn.pending[1..]) else sn
  }

  // ---------------------------------------------------------------------
  // Classification

  /** The classification of a candidate head: `Outside` off the grid; the raw
      cell value while `firstMove` is set (and the flag is consumed); later,
      `Empty` for the snake's own tail and the raw value otherwise. */
  function WillHit(s: GameState, pos: Position, body: seq<Position>): (r: (GridValue, GameState))
    requires Valid(s) && |body| > 0
    ensures r.1 == s.(firstMove := s.firstMove && OutsideGrid(s.rows, s.cols, pos))
    ensures r.0 == Outside <==> OutsideGrid(s.rows, s.cols, pos)
    ensures !OutsideGrid(s.rows, s.cols, pos) ==> InBounds(s.grid, pos)
    ensures r.0 != Outside && (s.firstMove || pos != Tail(body)) ==> r.0 == At(s.grid, pos)
    ensures r.0 != Outside && !s.firstMove && pos == Tail(body) ==> r.0 == Empty
  {
    OutsideGridIsNotInBounds(s.grid, s.rows, s.cols, pos);
    if OutsideGrid(s.rows, s.cols, pos) then (Outside, s)
    else if s.firstMove then (At(s.grid, pos), s.(firstMove := false))
    else if pos == Tail(body) then (Empty, s)
    else (At(s.grid, pos), s)
  }

  predicate IsCrash(v: GridValue) {
    v == Outside || v == Snake
  }

  /** Both candidates and their classifications, computed before either body changes. */
  datatype Classification = Classification(
    head1: Position,
    head2: Position,
    hit1: GridValue,
    hit2: GridValue,
    state: GameState)

  /** Dequeue one direction per snake, compute both candidate heads and
      classify snake 1's candidate, then snake 2's. */
  function Classify(s: GameState): (c: Classification)
    requires Valid(s)
    ensures c.state.snake1 == TakePending(s.snake1) && c.state.snake2 == TakePending(s.snake2)
    ensures c.state == s.(snake1 := c.state.snake1, snake2 := c.state.snake2, firstMove := c.state.firstMove)
    ensures c.head1 == NewHead(Head(s.snake1.body), c.state.snake1.dir)
    ensures c.head2 == NewHead(Head(s.snake2.body), c.state.snake2.dir)
    ensures c.state.firstMove <==>
              s.firstMove && OutsideGrid(s.rows, s.cols, c.head1) && OutsideGrid(s.rows, s.cols, c.head2)
    ensures c.hit1 == Outside <==> OutsideGrid(s.rows, s.cols, c.head1)
    ensures c.hit2 == Outside <==> OutsideGrid(s.rows, s.cols, c.head2)
    ensures c.hit1 != Outside ==> InBounds(s.grid, c.head1)
    ensures c.hit2 != Outside ==> InBounds(s.grid, c.head2)
    ensures c.hit1 != Outside ==>
              c.hit1 == if !s.firstMove && c.head1 == Tail(s.snake1.body) then Empty else At(s.grid, c.head1)
    ensures c.hit2 != Outside ==>
              var raw := s.firstMove && OutsideGrid(s.rows, s.cols, c.head1);
              c.hit2 == if !raw && c.head2 == Tail(s.snake2.body) then Empty else At(s.grid, c.head2)
  {
    var s1 := s.(snake1 := TakePending(s.snake1), snake2 := TakePending(s.snake2));
    var h1 := NewHead(Head(s1.snake1.body), s1.snake1.dir);
    var h2 := NewHead(Head(s1.snake2.body), s1.snake2.dir);
    var (hit1, s2) := WillHit(s1, h1, s1.snake1.body);
    var (hit2, s3) := WillHit(s2, h2, s1.snake2.body);
    Classification(h1, h2, hit1, hit2, s3)
  }

  /** Whether this tick ends the game. */
  predicate Crashes(s: GameState)
    requires Valid(s)
  {
    IsCrash(Classify(s).hit1) || IsCrash(Classify(s).hit2)
  }

  // ---------------------------------------------------------------------
  // Body updates

  /** Prepends `pos` to the body of `p` and marks its cell Snake. */
  function AddHead(s: GameState, p: Player, pos: Position): (r: GameState)
    requires WellFormed(s) && InBounds(s.grid, pos)
    ensures WellFormed(r)
    ensures r.SnakeOf(p).body == [pos] + s.SnakeOf(p).body
    ensures r.SnakeOf(p).dir == s.SnakeOf(p).dir && r.SnakeOf(p).pending == s.SnakeOf(p).pending
    ensures r.SnakeOf(p.Other()) == s.SnakeOf(p.Other())
    ensures r.(grid := s.grid, snake1 := s.snake1, snake2 := s.snake2) == s
    ensures At(r.grid, pos) == Snake
    ensures forall q :: InBounds(s.grid, q) && q != pos ==> At(r.grid, q) == At(s.grid, q)
  {
    var sn := s.SnakeOf(p);
    var g := Place(s.grid, pos, Snake);
    PlaceKeepsNoOutside(s.grid, pos, Snake);
    s.WithSnake(p, sn.(body := [pos] + sn.body)).(grid := g)
  }

  /** Removes the last cell of the body of `p` and clears that cell. */
  function RemoveTail(s: GameState, p: Player): (r: GameState)
    requires WellFormed(s) && |s.SnakeOf(p).body| > 0
    ensures WellFormed(r)
    ensures r.SnakeOf(p).body + [Tail(s.SnakeOf(p).body)] == s.SnakeOf(p).body
    ensures r.SnakeOf(p).dir == s.SnakeOf(p).dir && r.SnakeOf(p).pending == s.SnakeOf(p).pending
    ensures r.SnakeOf(p.Other()) == s.SnakeOf(p.Other())
    ensures r.(grid := s.grid, snake1 := s.snake1, snake2 := s.snake2) == s
    ensures At(r.grid, Tail(s.SnakeOf(p).body)) == Empty
    ensures forall q :: InBounds(s.grid, q) && q != Tail(s.SnakeOf(p).body) ==> At(r.grid, q) == At(s.grid, q)
  {
    var sn := s.SnakeOf(p);
    var tail := Tail(sn.body);
    var g := Place(s.grid, tail, Empty);
    PlaceKeepsNoOutside(s.grid, tail, Empty);
    var r := s.WithSnake(p, sn.(body := sn.body[..|sn.body| - 1])).(grid := g);
    assert r.SnakeOf(p).body + [tail] == sn.body;
    r
  }

  /** The snake `p` eats: new head, score + 1, new food. */
  function Grow(s: GameState, p: Player, pos: Position, draw: nat): (r: GameState)
    requires Valid(s) && InBounds(s.grid, pos)
    ensures Valid(r)
    ensures r.(grid := s.grid, score := s.score, snake1 := s.snake1, snake2 := s.snake2) == s
    ensures r.SnakeOf(p.Other()) == s.SnakeOf(p.Other())
    ensures r.SnakeOf(p).dir == s.SnakeOf(p).dir && r.SnakeOf(p).pending == s.SnakeOf(p).pending
    ensures r.SnakeOf(p).body == [pos] + s.SnakeOf(p).body && r.score == s.score + 1
    ensures At(r.grid, pos) == Snake
    ensures forall q :: InBounds(s.grid, q) && q != pos ==>
              At(r.grid, q) == At(s.grid, q) || (At(s.grid, q) == Empty && At(r.grid, q) == Food)
    ensures (forall q :: InBounds(s.grid, q) && q != pos ==> At(s.grid, q) != Empty) ==>
              forall q :: InBounds(s.grid, q) && q != pos ==> At(r.grid, q) == At(s.grid, q)
    ensures (exists q :: InBounds(s.grid, q) && q != pos && At(s.grid, q) == Empty) ==>
              exists f :: && InBounds(s.grid, f) && f != pos && At(s.grid, f) == Empty && At(r.grid, f) == Food
                          && forall q :: InBounds(s.grid, q) && q != pos && q != f ==> At(r.grid, q) == At(s.grid, q)
  {
    var s1 := AddHead(s, p, pos);
    AddFoodKeepsNoOutside(s1.grid, draw);
    AddFoodOnlyFillsEmpty(s1.grid, draw);
    RegridKeepsWellFormed(s1, AddFood(s1.grid, draw));
    SameShapeInBounds(s1.grid, s.grid);
    s1.(score := s1.score + 1, grid := AddFood(s1.grid, draw))
  }

  /** The snake `p` moves without eating: new head, then its old tail
      leaves the body and its cell is cleared. */
  function Shift(s: GameState, p: Player, pos: Position): (r: GameState)
    requires Valid(s) && InBounds(s.grid, pos)
    ensures Valid(r)
    ensures r.(grid := s.grid, snake1 := s.snake1, snake2 := s.snake2) == s
    ensures r.SnakeOf(p.Other()) == s.SnakeOf(p.Other())
    ensures r.SnakeOf(p).dir == s.SnakeOf(p).dir && r.SnakeOf(p).pending == s.SnakeOf(p).pending
    ensures r.SnakeOf(p).body + [Tail(s.SnakeOf(p).body)] == [pos] + s.SnakeOf(p).body
    ensures At(r.grid, Tail(s.SnakeOf(p).body)) == Empty
    ensures pos != Tail(s.SnakeOf(p).body) ==> At(r.grid, pos) == Snake
    ensures forall q :: InBounds(s.grid, q) && q != pos && q != Tail(s.SnakeOf(p).body) ==>
              At(r.grid, q) == At(s.grid, q)
  {
    var s1 := AddHead(s, p, pos);
    assert Tail(s1.SnakeOf(p).body) == Tail(s.SnakeOf(p).body);
    RemoveTail(s1, p)
  }

  /** The cells one snake's step leaves alone: every cell other than the
      head, and other than the old tail of a snake that does not eat, keeps
      its value, except that `f`, when the snake eats, may turn from Empty
      to Food. */
  ghost predicate StepFrame(g: Grid, h: Grid, head: Position, tail: Position, eats: bool, f: Position) {
    forall q :: InBounds(g, q) && q != head && (eats || q != tail) ==>
      InBounds(h, q) && (At(h, q) == At(g, q) || (eats && q == f && At(g, q) == Empty && At(h, q) == Food))
  }

  /** How one snake's step changes the grid: its head becomes Snake unless a
      snake that does not eat enters its own tail; the old tail of a snake
      that does not eat becomes Empty; every other cell keeps its value,
      except that an eating snake's food spawn turns at most one Empty cell
      to Food. */
  ghost predicate StepGrid(g: Grid, h: Grid, head: Position, tail: Position, eats: bool) {
    && SameShape(h, g)
    && InBounds(g, head) && InBounds(g, tail) && InBounds(h, head) && InBounds(h, tail)
    && (eats || head != tail ==> At(h, head) == Snake)
    && (!eats ==> At(h, tail) == Empty)
    && exists f :: StepFrame(g, h, head, tail, eats, f)
  }

  /** An eating step changes the grid as `StepGrid` says. */
  lemma GrowStep(s: GameState, p: Player, pos: Position, draw: nat)
    requires Valid(s) && InBounds(s.grid, pos)
    ensures StepGrid(s.grid, Grow(s, p, pos, draw).grid, pos, Tail(s.SnakeOf(p).body), true)
  {
    var r := Grow(s, p, pos, draw);
    var tail := Tail(s.SnakeOf(p).body);
    assert InBounds(s.grid, tail);
    SameShapeInBounds(r.grid, s.grid);
    if exists q :: InBounds(s.grid, q) && q != pos && At(s.grid, q) == Empty {
      var f :| && InBounds(s.grid, f) && f != pos && At(s.grid, f) == Empty && At(r.grid, f) == Food
               && forall q :: InBounds(s.grid, q) && q != pos && q != f ==> At(r.grid, q) == At(s.grid, q);
      assert StepFrame(s.grid, r.grid, pos, tail, true, f);
    } else {
      assert StepFrame(s.grid, r.grid, pos, tail, true, pos);
    }
  }

  /** A step without eating changes the grid as `StepGrid` says. */
  lemma ShiftStep(s: GameState, p: Player, pos: Position)
    requires Valid(s) && InBounds(s.grid, pos)
    ensures StepGrid(s.grid, Shift(s, p, pos).grid, pos, Tail(s.SnakeOf(p).body), false)
  {
    var r := Shift(s, p, pos);
    var tail := Tail(s.SnakeOf(p).body);
    assert InBounds(s.grid, tail);
    SameShapeInBounds(r.grid, s.grid);
    assert StepFrame(s.grid, r.grid, pos, tail, false, pos);
  }

  /** One snake's step in a tick without a crash: it places the snake's new
      head and, on Food, grows by one, scores and spawns food on an Empty
      cell if there is one; otherwise it drops the tail. */
  function Advance(s: GameState, p: Player, pos: Position, hit: GridValue, draw: nat): (r: GameState)
    requires Valid(s) && InBounds(s.grid, pos)
    ensures Valid(r)
    ensures r.rows == s.rows && r.cols == s.cols && r.gameOver == s.gameOver && r.firstMove == s.firstMove
    ensures r.SnakeOf(p.Other()) == s.SnakeOf(p.Other())
    ensures r.SnakeOf(p).dir == s.SnakeOf(p).dir && r.SnakeOf(p).pending == s.SnakeOf(p).pending
    ensures hit == Food ==> r.SnakeOf(p).body == [pos] + s.SnakeOf(p).body && r.score == s.score + 1
    ensures hit != Food ==>
              r.SnakeOf(p).body + [Tail(s.SnakeOf(p).body)] == [pos] + s.SnakeOf(p).body && r.score == s.score
    ensures StepGrid(s.grid, r.grid, pos, Tail(s.SnakeOf(p).body), hit == Food)
    ensures hit == Food && (exists q :: InBounds(s.grid, q) && q != pos && At(s.grid, q) == Empty) ==>
              exists f :: && InBounds(s.grid, f) && f != pos && At(s.grid, f) == Empty && At(r.grid, f) == Food
                          && forall q :: InBounds(s.grid, q) && q != pos && q != f ==> At(r.grid, q) == At(s.grid, q)
  {
    if hit == Food then
      GrowStep(s, p, pos, draw);
      Grow(s, p, pos, draw)
    else
      ShiftStep(s, p, pos);
      Shift(s, p, pos)
  }

  /** The cells a tick without a crash leaves alone: every cell other than
      the two heads, and other than the old tail of a snake that does not
      eat, keeps its value, except that `f1` when snake 1 eats and `f2` when
      snake 2 eats may turn from Empty to Food; and the old tail of a snake 1
      that does not eat, unless snake 2's head is on it, is Empty or is the
      cell `f2` where an eating snake 2 put its food. */
  ghost predicate TickFrame(g: Grid, h: Grid, head1: Position, head2: Position, tail1: Position, tail2: Position,
                            eats1: bool, eats2: bool, f1: Position, f2: Position) {
    && (!eats1 && head2 != tail1 ==>
          InBounds(h, tail1) && (At(h, tail1) == Empty || (eats2 && tail1 == f2 && At(h, tail1) == Food)))
    && forall q :: InBounds(g, q) && q != head1 && q != head2 && (eats1 || q != tail1) && (eats2 || q != tail2) ==>
         InBounds(h, q) &&
         (At(h, q) == At(g, q) ||
          (At(g, q) == Empty && At(h, q) == Food && ((eats1 && q == f1) || (eats2 && q == f2))))
  }

  /** How a tick without a crash changes the grid, snake 1 stepping before
      snake 2: each head that no later write clears is Snake; the old tail
      of a snake that does not eat is Empty unless the other head is on it
      or snake 2's food spawn lands there (snake 2's is always Empty); every
      other cell keeps its value, except that each eating snake turns at
      most one Empty cell to Food. */
  ghost predicate TickGrid(g: Grid, h: Grid, head1: Position, head2: Position,
                           tail1: Position, tail2: Position, eats1: bool, eats2: bool) {
    && SameShape(h, g)
    && InBounds(h, head1) && InBounds(h, head2) && InBounds(h, tail1) && InBounds(h, tail2)
    && ((eats1 || head1 != tail1) && (eats2 || head1 != tail2) ==> At(h, head1) == Snake)
    && (eats2 || head2 != tail2 ==> At(h, head2) == Snake)
    && (!eats2 ==> At(h, tail2) == Empty)
    && exists f1, f2 :: TickFrame(g, h, head1, head2, tail1, tail2, eats1, eats2, f1, f2)
  }

  /** Snake 1's step followed by snake 2's step changes the grid as `TickGrid` says. */
  lemma StepsMakeTick(g: Grid, m: Grid, h: Grid, head1: Position, head2: Position,
                      tail1: Position, tail2: Position, eats1: bool, eats2: bool)
    requires StepGrid(g, m, head1, tail1, eats1) && StepGrid(m, h, head2, tail2, eats2)
    ensures TickGrid(g, h, head1, head2, tail1, tail2, eats1, eats2)
  {
    var f1 :| StepFrame(g, m, head1, tail1, eats1, f1);
    var f2 :| StepFrame(m, h, head2, tail2, eats2, f2);
    assert TickFrame(g, h, head1, head2, tail1, tail2, eats1, eats2, f1, f2);
  }

  /** In a tick where neither snake eats, both vacated tails end Empty
      (snake 1's unless snake 2's head is on it) and no other cell changes,
      so no food appears. */
  lemma QuietTickClearsTails(g: Grid, h: Grid, head1: Position, head2: Position, tail1: Position, tail2: Position)
    requires TickGrid(g, h, head1, head2, tail1, tail2, false, false)
    ensures head2 != tail1 ==> At(h, tail1) == Empty
    ensures At(h, tail2) == Empty
    ensures forall q :: InBounds(g, q) && q != head1 && q != head2 && q != tail1 && q != tail2 ==>
              InBounds(h, q) && At(h, q) == At(g, q)
  {
    var f1, f2 :| TickFrame(g, h, head1, head2, tail1, tail2, false, false, f1, f2);
  }

  // ---------------------------------------------------------------------
  // The tick

  /** The step of a tick without a crash: snake 1, then snake 2. */
  function Resolve(c: Classification, draw1: nat, draw2: nat): (r: GameState)
    requires Valid(c.state)
    requires InBounds(c.state.grid, c.head1) && InBounds(c.state.grid, c.head2)
    ensures Valid(r)
    ensures r.rows == c.state.rows && r.cols == c.state.cols
    ensures r.gameOver == c.state.gameOver && r.firstMove == c.state.firstMove
    ensures r.snake1.dir == c.state.snake1.dir && r.snake1.pending == c.state.snake1.pending
    ensures r.snake2.dir == c.state.snake2.dir && r.snake2.pending == c.state.snake2.pending
    ensures c.hit1 == Food ==> r.snake1.body == [c.head1] + c.state.snake1.body
    ensures c.hit1 != Food ==> r.snake1.body + [Tail(c.state.snake1.body)] == [c.head1] + c.state.snake1.body
    ensures c.hit2 == Food ==> r.snake2.body == [c.head2] + c.state.snake2.body
    ensures c.hit2 != Food ==> r.snake2.body + [Tail(c.state.snake2.body)] == [c.head2] + c.state.snake2.body
    ensures r.score == c.state.score + (if c.hit1 == Food then 1 else 0) + (if c.hit2 == Food then 1 else 0)
    ensures TickGrid(c.state.grid, r.grid, c.head1, c.head2,
                     Tail(c.state.snake1.body), Tail(c.state.snake2.body), c.hit1 == Food, c.hit2 == Food)
  {
    var s1 := Advance(c.state, One, c.head1, c.hit1, draw1);
    assert InBounds(s1.grid, c.head2) by {
      SameShapeInBounds(s1.grid, c.state.grid);
    }
    var r := Advance(s1, Two, c.head2, c.hit2, draw2);
    StepsMakeTick(c.state.grid, s1.grid, r.grid, c.head1, c.head2,
                  Tail(c.state.snake1.body), Tail(c.state.snake2.body), c.hit1 == Food, c.hit2 == Food);
    r
  }

  /** One tick (the C# `Move`): dequeue, classify both candidates, then
      either end the game leaving grid, bodies and score as they were, or
      step snake 1 and then snake 2. `draw1`/`draw2` are the random draws used
      if snake 1 / snake 2 eats. */
  function Move(s: GameState, draw1: nat, draw2: nat): (r: GameState)
    requires Valid(s)
    ensures Valid(r)
    ensures r.rows == s.rows && r.cols == s.cols
    ensures r.snake1.dir == TakePending(s.snake1).dir && r.snake1.pending == TakePending(s.snake1).pending
    ensures r.snake2.dir == TakePending(s.snake2).dir && r.snake2.pending == TakePending(s.snake2).pending
    ensures r.firstMove == Classify(s).state.firstMove
    ensures Crashes(s) ==>
              && r.gameOver
              && r.grid == s.grid && r.score == s.score
              && r.snake1.body == s.snake1.body && r.snake2.body == s.snake2.body
    ensures !Crashes(s) ==>
              var c := Classify(s);
              var b1 := s.snake1.body;
              var b2 := s.snake2.body;
              && r.gameOver == s.gameOver
              && (c.hit1 == Food ==> r.snake1.body == [c.head1] + b1)
              && (c.hit1 != Food ==> r.snake1.body + [Tail(b1)] == [c.head1] + b1)
              && (c.hit2 == Food ==> r.snake2.body == [c.head2] + b2)
              && (c.hit2 != Food ==> r.snake2.body + [Tail(b2)] == [c.head2] + b2)
              && r.score == s.score + (if c.hit1 == Food then 1 else 0) + (if c.hit2 == Food then 1 else 0)
              && TickGrid(s.grid, r.grid, c.head1, c.head2, Tail(b1), Tail(b2), c.hit1 == Food, c.hit2 == Food)
    ensures s.score <= r.score <= s.score + 2
  {
    var c := Classify(s);
    if IsCrash(c.hit1) || IsCrash(c.hit2) then c.state.(gameOver := true)
    else Resolve(c, draw1, draw2)
  }
}

=== FILE: food.dfy ===
/** Food spawning: enumerate the Empty cells in row-major order and turn
    the one picked by a random draw into Food. */
module Food {

  import opened Wrappers
  import opened Geometry
  import opened Board

  /** Row-major order of cells. */
  predicate Before(p: Position, q: Position) {
    p.row < q.row || (p.row == q.row && p.col < q.col)
  }

  /** Strictly increasing in row-major order; in particular no cell twice. */
  predicate RowMajor(e: seq<Position>) {
    forall i, j :: 0 <= i < j < |e| ==> Before(e[i], e[j])
  }

  /** The Empty cells of row `r` from column `c` on, left to right. */
  function EmptyInRow(g: Grid, r: nat, c: nat): (e: seq<Position>)
    requires r < |g| && c <= |g[r]|
    ensures forall q :: q in e <==> q.row == r && c <= q.col && InBounds(g, q) && At(g, q) == Empty
    ensures RowMajor(e)
    decreases |g[r]| - c
  {
    if c == |g[r]| then []
    else
      var rest := EmptyInRow(g, r, c + 1);
      if g[r][c] == Empty then
        assert forall j :: 0 <= j < |rest| ==> rest[j] in rest;
        [Position(r, c)] + rest
      else rest
  }

  /** The Empty cells of rows `r..` in row-major order. */
  function EmptyFromRow(g: Grid, r: nat): (e: seq<Position>)
    requires r <= |g|
    ensures forall q :: q in e <==> r <= q.row && InBounds(g, q) && At(g, q) == Empty
    ensures RowMajor(e)
    decreases |g| - r
  {
    if r == |g| then []
    else
      var here := EmptyInRow(g, r, 0);
      var rest := EmptyFromRow(g, r + 1);
      assert forall i :: 0 <= i < |here| ==> here[i] in here;
      assert forall j :: 0 <= j < |rest| ==> rest[j] in rest;
      here + rest
  }

  /** Every Empty cell of the grid exactly once, in row-major order
      (the C# `EmptyPositions` iterator). */
  function EmptyPositions(g: Grid): (e: seq<Position>)
    ensures forall q :: q in e <==> InBounds(g, q) && At(g, q) == Empty
    ensures RowMajor(e)
  {
    EmptyFromRow(g, 0)
  }

  /** The two nested loops of the C# `EmptyPositions` over rows and columns, collecting the
      Empty cells; they produce exactly `EmptyPositions`. */
  method CollectEmptyPositions(g: Grid, rows: nat, cols: nat) returns (e: seq<Position>)
    requires Shaped(g, rows, cols)
    ensures e == EmptyPositions(g)
  {
    e := [];
    var r := 0;
    while r < rows
      invariant 0 <= r <= rows
      invariant e + EmptyFromRow(g, r) == EmptyPositions(g)
    {
      assert EmptyFromRow(g, r) == EmptyInRow(g, r, 0) + EmptyFromRow(g, r + 1);
      assert e + EmptyInRow(g, r, 0) + EmptyFromRow(g, r + 1) == EmptyPositions(g);
      var c := 0;
      while c < cols
        invariant 0 <= c <= cols
        invariant e + EmptyInRow(g, r, c) + EmptyFromRow(g, r + 1) == EmptyPositions(g)
      {
        var rest := EmptyInRow(g, r, c + 1);
        if g[r][c] == Empty {
          assert EmptyInRow(g, r, c) == [Position(r, c)] + rest;
          assert e + EmptyInRow(g, r, c) == (e + [Position(r, c)]) + rest;
          e := e + [Position(r, c)];
        } else {
          assert EmptyInRow(g, r, c) == rest;
        }
        c := c + 1;
      }
      assert EmptyInRow(g, r, cols) == [];
      r := r + 1;
    }
  }

  /** The index `random.Next(count)` returns for a raw draw: always in
      `[0, count)`, and every index in range is the result of some draw. */
  function PickIndex(count: nat, draw: nat): (i: nat)
    requires count > 0
    ensures i < count
    ensures draw < count ==> i == draw
  {
    draw % count
  }

  /** The cell that receives food for random draw `draw`: the C# `AddFood`
      picks `empty[random.Next(empty.Count)]`. None when no cell is Empty. */
  function FoodSpot(g: Grid, draw: nat): (spot: Option<Position>)
    ensures spot.None? <==> forall q :: InBounds(g, q) ==> At(g, q) != Empty
    ensures spot.Some? ==> spot.value in EmptyPositions(g)
    ensures spot.Some? ==> InBounds(g, spot.value) && At(g, spot.value) == Empty
  {
    var empty := EmptyPositions(g);
    if |empty| == 0 then None
    else
      assert empty[0] in empty;
      Some(empty[PickIndex(|empty|, draw)])
  }

  /** Every Empty cell is chosen by some draw: the model does not narrow the
      random choice. */
  lemma FoodSpotCovers(g: Grid, q: Position)
    requires InBounds(g, q) && At(g, q) == Empty
    ensures exists draw: nat :: FoodSpot(g, draw) == Some(q)
  {
    var empty := EmptyPositions(g);
    assert q in empty;
    var i :| 0 <= i < |empty| && empty[i] == q;
    assert PickIndex(|empty|, i) == i;
    assert FoodSpot(g, i) == Some(empty[i]);
  }

  /** Spawns food: with no Empty cell the grid is unchanged; otherwise exactly
      one previously Empty cell becomes Food and no other cell changes. */
  function AddFood(g: Grid, draw: nat): (r: Grid)
    ensures SameShape(r, g)
    ensures (forall q :: InBounds(g, q) ==> At(g, q) != Empty) ==> r == g
    ensures (exists q :: InBounds(g, q) && At(g, q) == Empty) ==>
              exists p :: InBounds(g, p) && At(g, p) == Empty && At(r, p) == Food
                          && forall q :: InBounds(g, q) && q != p ==> At(r, q) == At(g, q)
  {
    match FoodSpot(g, draw)
    case None => g
    case Some(p) => Place(g, p, Food)
  }

  /** Spawning food adds one former Empty cell to the Food cells (none on a
      full grid) and leaves the Snake cells alone. */
  lemma AddFoodCells(g: Grid, draw: nat)
    ensures CellsOf(AddFood(g, draw), Snake) == CellsOf(g, Snake)
    ensures CellsOf(g, Empty) == {} ==> CellsOf(AddFood(g, draw), Food) == CellsOf(g, Food)
    ensures CellsOf(g, Empty) != {} ==>
              exists p :: p in CellsOf(g, Empty) && CellsOf(AddFood(g, draw), Food) == CellsOf(g, Food) + {p}
  {
    match FoodSpot(g, draw)
    case None =>
    case Some(p) =>
      PlaceCells(g, p, Food, Snake);
      PlaceCells(g, p, Food, Food);
      assert p in CellsOf(g, Empty);
  }

  /** On a grid without food, spawning leaves exactly one Food cell, or
      none when no cell is Empty. */
  lemma AddFoodToFoodless(g: Grid, draw: nat)
    requires CellsOf(g, Food) == {}
    ensures |CellsOf(AddFood(g, draw), Food)| == if CellsOf(g, Empty) == {} then 0 else 1
  {
    match FoodSpot(g, draw)
    case None =>
      assert CellsOf(g, Empty) == {} by {
        forall q | q in CellsOf(g, Empty) ensures false { }
      }
    case Some(p) =>
      PlaceCells(g, p, Food, Food);
      assert p in CellsOf(g, Empty);
      assert CellsOf(AddFood(g, draw), Food) == {p};
  }

  /** Spawning food changes no cell except an Empty one into Food. */
  lemma AddFoodOnlyFillsEmpty(g: Grid, draw: nat)
    ensures forall q :: InBounds(g, q) ==>
              At(AddFood(g, draw), q) == At(g, q) || (At(g, q) == Empty && At(AddFood(g, draw), q) == Food)
  {
  }

  /** Spawning food keeps the grid free of `Outside`. */
  lemma AddFoodKeepsNoOutside(g: Grid, draw: nat)
    requires NoOutsideStored(g)
    ensures NoOutsideStored(AddFood(g, draw))
  {
    match FoodSpot(g, draw)
    case None =>
    case Some(p) => PlaceKeepsNoOutside(g, p, Food);
  }
}

=== FILE: geometry.dfy ===
/** Positions, directions and cell values of the snake grid.
    Rows grow downwards: `Up` decreases the row, `Left` decreases the column. */
module Geometry {

  /** A cell coordinate; (0, 0) is the top-left cell. */
  datatype Position = Position(row: int, col: int)

  /** What a cell holds. `Outside` is never stored in a grid: it is only
      the classification of a position beyond the grid's border. */
  datatype GridValue = Empty | Snake | Food | Outside

  datatype Direction = Up | Down | Left | Right {

    function RowOffset(): int {
      match this
      case Up => -1
      case Down => 1
      case Left => 0
      case Right => 0
    }

    function ColOffset(): int {
      match this
      case Up => 0
      case Down => 0
      case Left => -1
      case Right => 1
    }

    /** The reverse direction: its offsets are the negated offsets. */
    function Opposite(): (o: Direction)
      ensures o != this
      ensures o.RowOffset() == -RowOffset() && o.ColOffset() == -ColOffset()
    {
      match this
      case Up => Down
      case Down => Up
      case Left => Right
      case Right => Left
    }
  }

  /** Scalar product of two directions' unit vectors: 0 exactly for a right angle. */
  function Dot(a: Direction, b: Direction): int {
    a.RowOffset() * b.RowOffset() + a.ColOffset() * b.ColOffset()
  }

  /** Each direction moves exactly one cell, horizontally or vertically. */
  lemma UnitOffsets(d: Direction)
    ensures (d.RowOffset() == 0) != (d.ColOffset() == 0)
    ensures -1 <= d.RowOffset() <= 1 && -1 <= d.ColOffset() <= 1
  {
  }

  /** Taking the opposite twice gives the direction back. */
  lemma OppositeInvolutive(d: Direction)
    ensures d.Opposite().Opposite() == d
  {
  }

  /** The cell one step from `head` in direction `d` (the C# `GetNewHeadPosition`). */
  function NewHead(head: Position, d: Direction): (p: Position)
    ensures (if p.row < head.row then head.row - p.row else p.row - head.row)
          + (if p.col < head.col then head.col - p.col else p.col - head.col) == 1
  {
    Position(head.row + d.RowOffset(), head.col + d.ColOffset())
  }

  /** Stepping forward and then in the opposite direction returns to the start. */
  lemma NewHeadOpposite(head: Position, d: Direction)
    ensures NewHead(NewHead(head, d), d.Opposite()) == head
  {
  }

  /** Different directions lead to different cells. */
  lemma NewHeadInjective(head: Position, d: Direction, e: Direction)
    ensures NewHead(head, d) == NewHead(head, e) <==> d == e
  {
  }
}

=== FILE: invariants.dfy ===
/** The grid/body occupancy invariant of the engine, the conditions under
    which a tick preserves it, and states showing that it is not preserved
    unconditionally. */
module Invariants {

  import opened Geometry
  import opened Board
  import opened Food
  import opened Engine

  /** The cells a body covers. */
  ghost function Cells(body: seq<Position>): set<Position> {
    set x | x in body
  }

  /** No cell appears twice in the body. */
  predicate NoDup(body: seq<Position>) {
    forall i, j :: 0 <= i < j < |body| ==> body[i] != body[j]
  }

  /** Every Snake cell is a segment of exactly one snake and every segment
      is a Snake cell; no body revisits a cell; at most one cell holds food. */
  ghost predicate Occupancy(s: GameState) {
    && Valid(s)
    && NoDup(s.snake1.body)
    && NoDup(s.snake2.body)
    && Cells(s.snake1.body) !! Cells(s.snake2.body)
    && CellsOf(s.grid, Snake) == Cells(s.snake1.body) + Cells(s.snake2.body)
    && |CellsOf(s.grid, Food)| <= 1
  }

  // ---------------------------------------------------------------------
  // Helpers on bodies and sets

  lemma AtMostOne(f: set<Position>, x: Position)
    requires |f| <= 1 && x in f
    ensures f == {x}
  {
    var rest := f - {x};
    if rest != {} {
      var y :| y in rest;
      assert {x, y} <= f;
      assert |{x, y}| == 2;
      SubsetCard({x, y}, f);
    }
  }

  lemma SubsetCard(a: set<Position>, b: set<Position>)
    requires a <= b
    ensures |a| <= |b|
  {
    assert b == a + (b - a);
  }

  /** Prepending a new cell to a body without repeats. */
  lemma ConsBody(pos: Position, body: seq<Position>)
    requires NoDup(body) && pos !in Cells(body)
    ensures NoDup([pos] + body)
    ensures Cells([pos] + body) == {pos} + Cells(body)
  {
    var b := [pos] + body;
    forall i, j | 0 <= i < j < |b|
      ensures b[i] != b[j]
    {
      if i == 0 {
        assert b[j] == body[j - 1];
        assert body[j - 1] in Cells(body);
      } else {
        assert b[i] == body[i - 1] && b[j] == body[j - 1];
      }
    }
  }

  /** A shifted body: the new head in front, the old tail gone. */
  lemma ShiftBody(pos: Position, body: seq<Position>, shifted: seq<Position>)
    requires |body| > 0 && NoDup(body) && pos !in Cells(body)
    requires shifted + [Tail(body)] == [pos] + body
    ensures NoDup(shifted)
    ensures Cells(shifted) == ({pos} + Cells(body)) - {Tail(body)}
  {
    ConsBody(pos, body);
    var b := [pos] + body;
    assert shifted == b[..|b| - 1];
    assert Tail(body) == b[|b| - 1];
    forall x | x in Cells(b) - {Tail(body)}
      ensures x in Cells(shifted)
    {
      var i :| 0 <= i < |b| && b[i] == x;
      assert i < |b| - 1;
      assert shifted[i] == x;
    }
    forall x | x in Cells(shifted)
      ensures x != Tail(body)
    {
      var i :| 0 <= i < |shifted| && shifted[i] == x;
      assert b[i] == x;
    }
  }

  // ---------------------------------------------------------------------
  // The starting state

  /** A new game satisfies the occupancy invariant unless `cols == 4`, when
      both snakes start on the same cell. */
  lemma NewOccupancy(rows: int, cols: int, draw: nat)
    requires rows >= 1 && cols >= 3 && cols != 4
    ensures New(rows, cols, draw).Some? && Occupancy(New(rows, cols, draw).value)
  {
    NewBoard(rows, cols, draw);
  }

  /** When `cols == 4` the two snakes start on the same cell. */
  lemma NewAliasesWhenFourColumns(rows: int, draw: nat)
    requires rows >= 1
    ensures var s := New(rows, 4, draw).value;
            s.snake1.body == s.snake2.body && !Occupancy(s)
  {
    var s := New(rows, 4, draw).value;
    assert s.snake1.body[0] in Cells(s.snake1.body);
    assert s.snake2.body[0] in Cells(s.snake2.body);
  }

  // ---------------------------------------------------------------------
  // Classification against the bodies

  /** Under the invariant, a candidate inside the grid is classified Snake
      exactly when it lies on a body and is not the exempted own tail, and
      Food exactly when it is the food cell. */
  lemma ClassifyAgainstBodies(s: GameState)
    requires Occupancy(s)
    ensures var c := Classify(s);
            var b1 := s.snake1.body;
            var b2 := s.snake2.body;
            var exempt1 := !s.firstMove && c.head1 == Tail(b1);
            var exempt2 := !(s.firstMove && OutsideGrid(s.rows, s.cols, c.head1)) && c.head2 == Tail(b2);
            && (c.hit1 != Outside ==>
                  && (c.hit1 == Snake <==> c.head1 in Cells(b1) + Cells(b2) && !exempt1)
                  && (c.hit1 == Food <==> c.head1 in CellsOf(s.grid, Food) && !exempt1))
            && (c.hit2 != Outside ==>
                  && (c.hit2 == Snake <==> c.head2 in Cells(b1) + Cells(b2) && !exempt2)
                  && (c.hit2 == Food <==> c.head2 in CellsOf(s.grid, Food) && !exempt2))
  {
    var c := Classify(s);
    var b1 := s.snake1.body;
    var b2 := s.snake2.body;
    assert Tail(b1) in Cells(b1);
    assert Tail(b2) in Cells(b2);
  }

  /** A head that enters a cell of the other snake crashes, even when that
      cell is the other snake's tail that would be vacated in the same tick. */
  lemma MoveIntoOtherSnakeCrashes(s: GameState, draw1: nat, draw2: nat)
    requires Occupancy(s)
    requires Classify(s).head1 in Cells(s.snake2.body) || Classify(s).head2 in Cells(s.snake1.body)
    ensures Crashes(s)
    ensures var r := Move(s, draw1, draw2);
            r.gameOver && r.grid == s.grid && r.snake1.body == s.snake1.body && r.snake2.body == s.snake2.body
  {
    var c := Classify(s);
    var b1 := s.snake1.body;
    var b2 := s.snake2.body;
    assert Tail(b1) in Cells(b1);
    assert Tail(b2) in Cells(b2);
    if c.head1 in Cells(b2) {
      assert c.head1 in CellsOf(s.grid, Snake);
      assert c.hit1 == Snake;
    } else {
      assert c.head2 in CellsOf(s.grid, Snake);
      assert c.hit2 == Snake;
    }
  }

  // ---------------------------------------------------------------------
  // Preservation

  /** Eating adds the head to the Snake cells and, when the only food was
      on the head, leaves at most the spawned Food cell. */
  lemma GrowCells(s: GameState, p: Player, pos: Position, draw: nat)
    requires Valid(s) && InBounds(s.grid, pos)
    ensures CellsOf(Grow(s, p, pos, draw).grid, Snake) == CellsOf(s.grid, Snake) + {pos}
    ensures CellsOf(s.grid, Food) <= {pos} ==> |CellsOf(Grow(s, p, pos, draw).grid, Food)| <= 1
  {
    var g1 := Place(s.grid, pos, Snake);
    assert Grow(s, p, pos, draw).grid == AddFood(g1, draw);
    PlaceCells(s.grid, pos, Snake, Snake);
    AddFoodCells(g1, draw);
    if CellsOf(s.grid, Food) <= {pos} {
      PlaceCells(s.grid, pos, Snake, Food);
      AddFoodToFoodless(g1, draw);
    }
  }

  /** A state whose snake `p` gained the head `pos`, off both bodies, as a
      new Snake cell, and which holds at most one food, keeps the invariant. */
  lemma HeadAddedKeepsOccupancy(s: GameState, r: GameState, p: Player, pos: Position)
    requires Occupancy(s) && Valid(r)
    requires pos !in Cells(s.snake1.body) + Cells(s.snake2.body)
    requires r.SnakeOf(p).body == [pos] + s.SnakeOf(p).body
    requires r.SnakeOf(p.Other()) == s.SnakeOf(p.Other())
    requires CellsOf(r.grid, Snake) == CellsOf(s.grid, Snake) + {pos}
    requires |CellsOf(r.grid, Food)| <= 1
    ensures Occupancy(r)
    ensures Cells(r.SnakeOf(p).body) == {pos} + Cells(s.SnakeOf(p).body)
  {
    var b := s.SnakeOf(p).body;
    assert pos !in Cells(b);
    ConsBody(pos, b);
    if p == One {
      assert Occupancy(r);
    } else {
      assert Occupancy(r);
    }
  }

  /** Eating keeps the invariant when the new head is off both bodies and
      the food was on the new head. */
  lemma GrowKeepsOccupancy(s: GameState, p: Player, pos: Position, draw: nat)
    requires Occupancy(s) && InBounds(s.grid, pos)
    requires pos !in Cells(s.snake1.body) + Cells(s.snake2.body)
    requires CellsOf(s.grid, Food) <= {pos}
    ensures Occupancy(Grow(s, p, pos, draw))
    ensures Cells(Grow(s, p, pos, draw).SnakeOf(p).body) == {pos} + Cells(s.SnakeOf(p).body)
  {
    GrowCells(s, p, pos, draw);
    HeadAddedKeepsOccupancy(s, Grow(s, p, pos, draw), p, pos);
  }

  /** Moving without eating removes the new head and the old tail from the
      Food cells and adds none. */
  lemma ShiftFoodCells(s: GameState, p: Player, pos: Position)
    requires Valid(s) && InBounds(s.grid, pos)
    ensures CellsOf(Shift(s, p, pos).grid, Food) == CellsOf(s.grid, Food) - {pos} - {Tail(s.SnakeOf(p).body)}
  {
    var b := s.SnakeOf(p).body;
    var tail := Tail(b);
    var g1 := Place(s.grid, pos, Snake);
    var s1 := AddHead(s, p, pos);
    assert s1.SnakeOf(p).body == [pos] + b;
    assert Tail(s1.SnakeOf(p).body) == tail;
    assert InBounds(g1, tail);
    assert Shift(s, p, pos).grid == Place(g1, tail, Empty);
    PlaceCells(s.grid, pos, Snake, Food);
    PlaceCells(g1, tail, Empty, Food);
  }

  /** Moving without eating keeps the invariant when the new head is off
      both bodies, and adds no food. */
  lemma ShiftKeepsOccupancy(s: GameState, p: Player, pos: Position)
    requires Occupancy(s) && InBounds(s.grid, pos)
    requires pos !in Cells(s.snake1.body) + Cells(s.snake2.body)
    ensures Occupancy(Shift(s, p, pos))
    ensures CellsOf(Shift(s, p, pos).grid, Food) <= CellsOf(s.grid, Food)
    ensures Cells(Shift(s, p, pos).SnakeOf(p).body) <= {pos} + Cells(s.SnakeOf(p).body)
  {
    var r := Shift(s, p, pos);
    var b := s.SnakeOf(p).body;
    var o := s.SnakeOf(p.Other()).body;
    var tail := Tail(b);
    var g1 := Place(s.grid, pos, Snake);
    assert r.grid == Place(g1, tail, Empty);
    assert r.SnakeOf(p.Other()).body == o;
    assert tail in Cells(b) && tail !in Cells(o);
    assert NoDup(r.SnakeOf(p).body) && Cells(r.SnakeOf(p).body) == ({pos} + Cells(b)) - {tail} by {
      assert pos !in Cells(b);
      ShiftBody(pos, b, r.SnakeOf(p).body);
    }
    assert CellsOf(r.grid, Snake) == (CellsOf(s.grid, Snake) + {pos}) - {tail} by {
      PlaceCells(s.grid, pos, Snake, Snake);
      PlaceCells(g1, tail, Empty, Snake);
    }
    assert CellsOf(r.grid, Food) <= CellsOf(s.grid, Food) && |CellsOf(r.grid, Food)| <= 1 by {
      PlaceCells(s.grid, pos, Snake, Food);
      PlaceCells(g1, tail, Empty, Food);
      SubsetCard(CellsOf(r.grid, Food), CellsOf(s.grid, Food));
    }
    if p == One {
      assert Occupancy(r);
    } else {
      assert Occupancy(r);
    }
  }

  /** One snake's step keeps the invariant when its new head is off both
      bodies and, if it eats, the food was on the new head. A shift never
      adds food. */
  lemma StepKeepsOccupancy(s: GameState, p: Player, pos: Position, hit: GridValue, draw: nat)
    requires Occupancy(s) && InBounds(s.grid, pos)
    requires pos !in Cells(s.snake1.body) + Cells(s.snake2.body)
    requires hit == Food ==> CellsOf(s.grid, Food) <= {pos}
    ensures Occupancy(Advance(s, p, pos, hit, draw))
    ensures hit != Food ==> CellsOf(Advance(s, p, pos, hit, draw).grid, Food) <= CellsOf(s.grid, Food)
    ensures Cells(Advance(s, p, pos, hit, draw).SnakeOf(p).body) <= {pos} + Cells(s.SnakeOf(p).body)
    ensures Advance(s, p, pos, hit, draw).SnakeOf(p.Other()) == s.SnakeOf(p.Other())
  {
    if hit == Food {
      GrowKeepsOccupancy(s, p, pos, draw);
    } else {
      ShiftKeepsOccupancy(s, p, pos);
    }
  }

  /** Occupancy depends only on the grid and the bodies. */
  lemma OccupancyFrame(s: GameState, t: GameState)
    requires Occupancy(s) && Valid(t)
    requires t.grid == s.grid && t.snake1.body == s.snake1.body && t.snake2.body == s.snake2.body
    ensures Occupancy(t)
  {
  }

  /** In a tick without a crash, under the invariant and with distinct new
      heads that are not their own tails: both heads are on the grid, off
      both bodies, and a snake classified Food is heading for the only food. */
  lemma TickFacts(s: GameState)
    requires Occupancy(s) && !Crashes(s)
    requires Classify(s).head1 != Classify(s).head2
    requires Classify(s).head1 != Tail(s.snake1.body)
    requires Classify(s).head2 != Tail(s.snake2.body)
    ensures var c := Classify(s);
            var bodies := Cells(s.snake1.body) + Cells(s.snake2.body);
            && InBounds(s.grid, c.head1) && InBounds(s.grid, c.head2)
            && c.head1 !in bodies && c.head2 !in bodies
            && (c.hit1 == Food ==> CellsOf(s.grid, Food) == {c.head1})
            && (c.hit2 == Food ==> CellsOf(s.grid, Food) == {c.head2})
  {
    var c := Classify(s);
    ClassifyAgainstBodies(s);
    if c.hit1 == Food {
      AtMostOne(CellsOf(s.grid, Food), c.head1);
    }
    if c.hit2 == Food {
      AtMostOne(CellsOf(s.grid, Food), c.head2);
    }
  }

  /** The two steps of a tick keep the invariant when both new heads are on
      the grid, distinct and off both bodies, and a snake that eats is
      heading for the only food. */
  lemma ResolveKeepsOccupancy(c: Classification, draw1: nat, draw2: nat)
    requires Occupancy(c.state)
    requires InBounds(c.state.grid, c.head1) && InBounds(c.state.grid, c.head2)
    requires c.head1 != c.head2
    requires c.head1 !in Cells(c.state.snake1.body) + Cells(c.state.snake2.body)
    requires c.head2 !in Cells(c.state.snake1.body) + Cells(c.state.snake2.body)
    requires c.hit1 == Food ==> CellsOf(c.state.grid, Food) == {c.head1}
    requires c.hit2 == Food ==> CellsOf(c.state.grid, Food) == {c.head2}
    ensures Occupancy(Resolve(c, draw1, draw2))
  {
    var s1 := Advance(c.state, One, c.head1, c.hit1, draw1);
    assert && Occupancy(s1) && InBounds(s1.grid, c.head2)
           && c.head2 !in Cells(s1.snake1.body) + Cells(s1.snake2.body)
           && (c.hit2 == Food ==> CellsOf(s1.grid, Food) <= {c.head2}) by {
      StepKeepsOccupancy(c.state, One, c.head1, c.hit1, draw1);
      SameShapeInBounds(s1.grid, c.state.grid);
    }
    assert Occupancy(Advance(s1, Two, c.head2, c.hit2, draw2)) by {
      StepKeepsOccupancy(s1, Two, c.head2, c.hit2, draw2);
    }
    assert Resolve(c, draw1, draw2) == Advance(s1, Two, c.head2, c.hit2, draw2);
  }

  /** A tick without a crash keeps the invariant when the two new heads
      differ and neither is its own snake's tail. */
  lemma TickKeepsOccupancy(s: GameState, draw1: nat, draw2: nat)
    requires Occupancy(s) && !Crashes(s)
    requires Classify(s).head1 != Classify(s).head2
    requires Classify(s).head1 != Tail(s.snake1.body)
    requires Classify(s).head2 != Tail(s.snake2.body)
    ensures Occupancy(Move(s, draw1, draw2))
  {
    TickFacts(s);
    var c := Classify(s);
    OccupancyFrame(s, c.state);
    ResolveKeepsOccupancy(c, draw1, draw2);
    assert Move(s, draw1, draw2) == Resolve(c, draw1, draw2);
  }

  /** A tick keeps the invariant when it crashes, and otherwise when the two
      new heads differ and neither new head is its own snake's tail. */
  lemma MoveKeepsOccupancy(s: GameState, draw1: nat, draw2: nat)
    requires Occupancy(s)
    requires !Crashes(s) ==>
               && Classify(s).head1 != Classify(s).head2
               && Classify(s).head1 != Tail(s.snake1.body)
               && Classify(s).head2 != Tail(s.snake2.body)
    ensures Occupancy(Move(s, draw1, draw2))
  {
    if Crashes(s) {
      OccupancyFrame(s, Move(s, draw1, draw2));
    } else {
      TickKeepsOccupancy(s, draw1, draw2);
    }
  }
}

=== FILE: scenarios.dfy ===
/** Ticks that show why the occupancy invariant needs the preconditions of
    `Invariants.MoveKeepsOccupancy`, and how the engine resolves two snakes
    facing each other. */
module Scenarios {

  import opened Wrappers
  import opened Geometry
  import opened Board
  import opened Food
  import opened Engine
  import opened Invariants

  /** When snake 1's new head is its own tail, classified Empty, its step
      writes the head's cell and then clears it as the old tail; snake 2's
      step, elsewhere, does not make it a Snake cell again. */
  lemma ResolveOntoOwnTail(c: Classification, draw1: nat, draw2: nat)
    requires Valid(c.state)
    requires InBounds(c.state.grid, c.head1) && InBounds(c.state.grid, c.head2)
    requires c.head1 == Tail(c.state.snake1.body) && c.hit1 == Empty
    requires c.head2 != c.head1 && c.head1 != Tail(c.state.snake2.body)
    ensures var r := Resolve(c, draw1, draw2);
            Head(r.snake1.body) == c.head1 && At(r.grid, c.head1) != Snake
  {
    var s1 := Shift(c.state, One, c.head1);
    assert At(s1.grid, c.head1) == Empty;
    assert Head(s1.snake1.body) == c.head1 by {
      assert (s1.snake1.body + [c.head1])[0] == c.head1;
    }
  }

  /** Entering the own tail is classified Empty (after the first move) and
      the tick runs, but the new head's cell is written and then cleared as
      the old tail, so the head lies on no Snake cell and the invariant breaks. */
  lemma OwnTailClearsHead(s: GameState, draw1: nat, draw2: nat)
    requires Occupancy(s) && !s.firstMove && !Crashes(s)
    requires Classify(s).head1 == Tail(s.snake1.body)
    requires Classify(s).head2 != Classify(s).head1
    ensures var r := Move(s, draw1, draw2);
            && Head(r.snake1.body) == Classify(s).head1
            && At(r.grid, Classify(s).head1) != Snake
            && !Occupancy(r)
  {
    var c := Classify(s);
    assert c.hit1 == Empty && c.head1 !in Cells(s.snake2.body) by {
      ClassifyAgainstBodies(s);
      assert Tail(s.snake1.body) in Cells(s.snake1.body);
    }
    assert c.head1 != Tail(s.snake2.body) by {
      assert Tail(s.snake2.body) in Cells(s.snake2.body);
    }
    ResolveOntoOwnTail(c, draw1, draw2);
    var r := Move(s, draw1, draw2);
    assert r == Resolve(c, draw1, draw2);
    assert Head(r.snake1.body) in Cells(r.snake1.body);
  }

  /** Both snakes may target the same food cell: both classify it as Food,
      both eat it, the score rises by two for one food, and both bodies then
      share the cell, so the invariant breaks. */
  lemma SameCellScoresTwice(s: GameState, draw1: nat, draw2: nat)
    requires Occupancy(s) && !Crashes(s)
    requires Classify(s).head1 == Classify(s).head2
    requires Classify(s).hit1 == Food
    ensures Classify(s).hit2 == Food
    ensures var r := Move(s, draw1, draw2);
            && r.score == s.score + 2
            && Head(r.snake1.body) == Head(r.snake2.body)
            && !Occupancy(r)
  {
    var c := Classify(s);
    ClassifyAgainstBodies(s);
    var r := Move(s, draw1, draw2);
    assert Head(r.snake1.body) in Cells(r.snake1.body);
    assert Head(r.snake2.body) in Cells(r.snake2.body);
  }

  /** After eating the only food at `pos`, some draw puts the new food on
      any chosen Empty `target`. */
  lemma FoodOntoTarget(g: Grid, pos: Position, target: Position) returns (draw: nat)
    requires InBounds(g, pos) && InBounds(g, target) && pos != target
    requires At(g, target) == Empty && CellsOf(g, Food) <= {pos}
    ensures CellsOf(AddFood(Place(g, pos, Snake), draw), Food) == {target}
  {
    var g1 := Place(g, pos, Snake);
    PlaceCells(g, pos, Snake, Food);
    FoodSpotCovers(g1, target);
    draw :| FoodSpot(g1, draw) == Some(target);
    PlaceCells(g1, target, Food, Food);
  }

  /** Even when the new heads differ and neither is its own tail, some food
      draw makes snake 1's new food land on snake 2's target, which snake 2
      then overwrites: the tick ends with no food. So "at most one food" cannot
      be strengthened to "exactly one until the grid is full". */
  lemma FoodCanBeOverwritten(s: GameState, draw2: nat)
    requires Occupancy(s) && !Crashes(s)
    requires Classify(s).hit1 == Food
    requires Classify(s).head1 != Classify(s).head2
    requires Classify(s).head2 != Tail(s.snake2.body)
    ensures exists draw1: nat :: CellsOf(Move(s, draw1, draw2).grid, Food) == {}
  {
    var c := Classify(s);
    assert c.hit2 == Empty && At(s.grid, c.head2) == Empty && CellsOf(s.grid, Food) <= {c.head1} by {
      ClassifyAgainstBodies(s);
      AtMostOne(CellsOf(s.grid, Food), c.head1);
    }
    var draw1 := FoodOntoTarget(s.grid, c.head1, c.head2);
    var s1 := Advance(c.state, One, c.head1, c.hit1, draw1);
    assert s1.grid == AddFood(Place(s.grid, c.head1, Snake), draw1);
    assert Move(s, draw1, draw2) == Shift(s1, Two, c.head2);
    ShiftFoodCells(s1, Two, c.head2);
  }

  /** Snake 1 at (2, 1) heading right and snake 2 at (2, 2) heading left on a
      5 x 5 board, each about to enter the other's only cell. */
  function FacingState(): GameState {
    GameState(5, 5,
              Place(Place(Blank(5, 5), Position(2, 1), Snake), Position(2, 2), Snake),
              SnakeState([Position(2, 1)], Right, []),
              SnakeState([Position(2, 2)], Left, []),
              0, false, true)
  }

  /** The two snakes do not swap cells: entering a cell of the other snake is
      a crash, even though that cell is being vacated in the same tick. */
  lemma FacingSnakesCrash()
    ensures var r := Move(FacingState(), 0, 0);
            && r.gameOver
            && r.snake1.body == [Position(2, 1)] && r.snake2.body == [Position(2, 2)]
            && r.grid == FacingState().grid
  {
    var s := FacingState();
    var c := Classify(s);
    assert c.head1 == Position(2, 2);
    assert At(s.grid, Position(2, 2)) == Snake;
    assert c.hit1 == Snake;
  }
}

=== FILE: wrappers.dfy ===
/** Optional values, used for the constructor that can fail and for the
    food cell that may not exist. */
module Wrappers {

  datatype Option<+T> = None | Some(value: T)
}
